=== FILE: README.md ===
# Product ownership gate

A Dafny model of `productOwnership`, the Strapi/Koa middleware that guards
mutations of products. For a request on a path starting with
`/api/products` whose method is `PUT`, `DELETE` or `PATCH`, it:

1. requires an authenticated user in request state (else 401 "You must be logged in");
2. requires a non-empty `id` path parameter (else 400 "Product ID is required");
3. looks the product up with its seller populated;
4. answers 404 "Product not found" when the lookup yields `null`;
5. answers 500 "An error occurred" when the lookup throws;
6. allows the request when the user is the product's seller or holds a role
   named exactly `Administrator` (else 403 "You are not authorized to modify
   this product");
7. stores the fetched product in `state.product` and calls the next stage.

Every other request is passed to the next stage untouched.

The model is functional. The request, user, product, request state and
lookup outcome are immutable datatypes (`model.dfy`). The awaited lookup is
an input value: `Found(product)`, `Absent` (the lookup returned `null`), or
`Fault(detail)` (it threw). The result is an `Outcome`. It pairs a verdict
with the request state left behind. The verdict is either `Forward` (the
next stage is called) or `Halt(failure)`, one of the five classified
responses, each with its status code and fixed message.

- `policy.dfy` (module `Policy`) defines each test the middleware applies
  once. Its lemmas cover their edge cases.
- `gate.dfy` (module `Gate`) is the decision procedure. `Admit` covers
  everything before the await. `Resume` covers everything after it.
  `Decide` composes the two. The lemmas classify each outcome with an
  if-and-only-if.
- `handler.dfy` (module `Handler`) writes the same handler step by step.
  The string prefix test, the method list lookup and the role search are
  explicit loops. `Handle` is proved equal to `Gate.Decide` on every input.
- `scenarios.dfy` (module `Scenarios`) works through concrete requests.

Points where the code's behaviour is easy to misread:

- An empty-string id is treated like a missing one: the code tests
  `!productId`, and `""` is falsy.
- The "fallback" id location reads the same field as the primary one.
- The path test is a raw prefix test, so `/api/productsX` is gated too.
- The configuration (prefix, methods, role name) is hard-wired. The
  middleware's `config` argument is never read.
- Roles form a sequence searched with `some`. Their order does not matter
  (`Policy.AdminIgnoresRoleOrder`, for permutations), and neither do
  repeated roles or role ids (`Policy.AdminDependsOnRoleNamesOnly`, which
  compares the sets of role names).

## Model

| member | source | states |
|---|---|---|
| Gate.Admit | src/api/product/middlewares/ownership.ts:35-60 | the request reaches the lookup exactly when it is gated, carries a user and a non-empty id; it then asks for exactly that id and user; otherwise state is untouched, it forwards exactly when the request is not gated, and a gated request stopped here is 401 without a user and 400 with one |
| Gate.Resume | src/api/product/middlewares/ownership.ts:63-94 | after the lookup: forward iff a product was found and the user is its seller or an administrator, with that product attached; 403 iff a product was found that the user may not modify; 500 iff the lookup threw; 404 iff it returned null; state untouched on every halt |
| Gate.Decide | src/api/product/middlewares/ownership.ts:30-95 | the user in state is never changed; a halted request leaves state untouched; state changes only on a forwarded request whose lookup found a product, and then holds that product |
| Gate.OffPathForwards | src/api/product/middlewares/ownership.ts:35-37 | a path without the `/api/products` prefix is forwarded with state unchanged, for any method, user, id and lookup |
| Gate.NonMutatingForwards | src/api/product/middlewares/ownership.ts:42-44 | on a product path, a method other than PUT, DELETE, PATCH is forwarded with state unchanged |
| Gate.UnauthorizedIff | src/api/product/middlewares/ownership.ts:48-51 | the result is 401 exactly when the request is gated and has no user, whatever the id and lookup |
| Gate.BadRequestIff | src/api/product/middlewares/ownership.ts:55-60 | the result is 400 exactly when the request is gated, has a user, and the id is missing or empty |
| Gate.NotFoundIff | src/api/product/middlewares/ownership.ts:69-72 | the result is 404 exactly when the lookup is reached and returns null |
| Gate.InternalErrorIff | src/api/product/middlewares/ownership.ts:91-94 | the result is 500 exactly when the lookup is reached and throws |
| Gate.ForbiddenIff | src/api/product/middlewares/ownership.ts:82-85 | the result is 403 exactly when the lookup is reached, finds a product, and the user is neither its seller nor an administrator |
| Gate.ForwardIff | src/api/product/middlewares/ownership.ts:35-90 | the next stage is called exactly when the request is not gated, or it has a user and non-empty id and the found product is the user's or the user is an administrator |
| Gate.AllowedAttachesProduct | src/api/product/middlewares/ownership.ts:87-90 | an allowed gated request leaves state with the same user and exactly the fetched product |
| Gate.LookupNotConsulted | src/api/product/middlewares/ownership.ts:35-60 | when the request is not gated, has no user or has no id, the lookup outcome does not affect the result |
| Gate.FaultIsOpaque | src/api/product/middlewares/ownership.ts:91-94 | the thrown error's content never changes the result, and the 500 message is the fixed "An error occurred" |
| Gate.VerdictIgnoresPriorProduct | src/api/product/middlewares/ownership.ts:29-95 | the verdict depends only on path, method, user, id and lookup outcome; a product already in state does not influence it |
| Gate.SellerlessProductNeedsAdmin | src/api/product/middlewares/ownership.ts:74-85 | a found product with no seller is forwarded iff the user is an administrator |
| Policy.IsProductPath | src/api/product/middlewares/ownership.ts:35 | definition: `ctx.path.startsWith("/api/products")` is the sequence prefix test `ProductPrefix <= path` |
| Policy.IsMutating | src/api/product/middlewares/ownership.ts:42 | definition: `["PUT", "DELETE", "PATCH"].includes(method)` is membership of the method in that three-string sequence, compared exactly |
| Policy.Gated | src/api/product/middlewares/ownership.ts:35-44 | definition: a request passes both early-return filters, the path prefix test and the method test |
| Policy.HasId | src/api/product/middlewares/ownership.ts:55-57 | definition: `!productId` is false, that is the id is present and not the empty string |
| Policy.IsOwner | src/api/product/middlewares/ownership.ts:75 | definition: `product.seller?.id === state.user.id` holds iff the seller is present and its id equals the user's id; an absent seller gives `undefined`, which equals no number |
| Policy.IsAdmin | src/api/product/middlewares/ownership.ts:78-80 | definition: `roles.some(role => role.name === "Administrator")` is the existence of an index whose role name is exactly "Administrator" |
| Policy.Allowed | src/api/product/middlewares/ownership.ts:82 | definition: the negation of `!isOwner && !isAdmin`, that is owner or administrator |
| Gate.ReachesLookup | src/api/product/middlewares/ownership.ts:35-60 | definition: the request passes the path and method filters, has a user and has a non-empty id, so control reaches the awaited lookup at line 63 |
| Policy.MutatingMethodsExactly | src/api/product/middlewares/ownership.ts:42 | a method is gated iff it is exactly PUT, DELETE or PATCH |
| Policy.ReadsAndCreatesNotGated | src/api/product/middlewares/ownership.ts:41-44 | GET, POST and HEAD are never gated, nor are `put` and `Delete`; every method other than the exact strings PUT, DELETE and PATCH, so every other spelling of them, is not gated |
| Policy.PrefixIsRaw | src/api/product/middlewares/ownership.ts:34-35 | every path continuing `/api/products` is a product path, including `/api/productsX`; `/api/product` and `/API/products` are not |
| Policy.ProductPathDecomposes | src/api/product/middlewares/ownership.ts:35 | a path passes the prefix test iff it is `/api/products` followed by some string |
| Policy.EmptyIdIsMissing | src/api/product/middlewares/ownership.ts:55-57 | an id counts iff it is present and non-empty; absent and "" are both missing, "0" is not |
| Policy.NoSellerOnlyAdmin | src/api/product/middlewares/ownership.ts:75-82 | for a product without a seller, the user is allowed iff an administrator |
| Policy.AdminAllowedEverywhere | src/api/product/middlewares/ownership.ts:78-82 | an administrator is allowed on every product |
| Policy.NonAdminOnlyOwner | src/api/product/middlewares/ownership.ts:74-82 | a non-administrator is allowed iff the product's seller is present with the user's id |
| Policy.AdminIffNamed | src/api/product/middlewares/ownership.ts:78-80 | a user is an administrator iff "Administrator" is one of their role names |
| Policy.AdminDependsOnRoleNamesOnly | src/api/product/middlewares/ownership.ts:78-80 | two users with the same set of role names are both administrators or both not |
| Policy.AdminIgnoresRoleOrder | src/api/product/middlewares/ownership.ts:78-80 | permuting a user's roles does not change the administrator test |
| Policy.FailureStatusesDistinct | src/api/product/middlewares/ownership.ts:48-94 | the five halting responses have pairwise distinct status codes, all in 400..500 |
| Handler.StartsWith | src/api/product/middlewares/ownership.ts:35 | the character-by-character prefix test returns true iff the prefix is a prefix of the path |
| Handler.Includes | src/api/product/middlewares/ownership.ts:42 | the list search returns true iff the method occurs in the list |
| Handler.SomeRoleNamed | src/api/product/middlewares/ownership.ts:78-80 | the role search returns true iff some role has exactly the given name |
| Handler.Handle | src/api/product/middlewares/ownership.ts:30-95 | the step-by-step handler gives the same verdict and state as `Gate.Decide` on every request and lookup outcome |
| Scenarios.OwnerMayUpdate | src/api/product/middlewares/ownership.ts:74-90 | the seller's PUT is forwarded with the product attached |
| Scenarios.AdminMayDelete | src/api/product/middlewares/ownership.ts:77-90 | an administrator's DELETE on another seller's product is forwarded |
| Scenarios.OtherSellerForbidden | src/api/product/middlewares/ownership.ts:82-85 | a plain user's PATCH on another seller's product is 403 |
| Scenarios.AnonymousUnauthorized | src/api/product/middlewares/ownership.ts:48-51 | a PUT without a user is 401 |
| Scenarios.MissingIdBadRequest | src/api/product/middlewares/ownership.ts:55-60 | a PUT with no id or an empty id is 400 |
| Scenarios.UnknownProductNotFound | src/api/product/middlewares/ownership.ts:69-72 | a PUT whose lookup returns null is 404 |
| Scenarios.LookalikePathGated | src/api/product/middlewares/ownership.ts:35 | a PUT on `/api/productsX` without a user is 401 |
| Scenarios.LowerCaseMethodForwarded | src/api/product/middlewares/ownership.ts:42 | a request with method `put` is forwarded |

## Left out

- Logging is not modelled. This covers `console.log(state)` (line 45) and `strapi.log.error(err)` (line 92). They have no effect on the decision.
- The product service call `findOne(id, { populate: ["seller"] })` is not modelled. It is a framework call. Its result is the `Lookup` input, taken as the outcome for the requested id. `Gate.Admit` exposes that id.
- The framework's context helpers (`ctx.unauthorized`, `ctx.badRequest`, `ctx.notFound`, `ctx.forbidden`, `ctx.internalServerError`) are modelled only as the `Failure` constructors. They come from Strapi, not from Koa's own context. Each carries the helper's HTTP status code and the fixed message. The response body format is left out.
- The model takes every context helper to set the response and return normally. `ctx.badRequest` (line 58), `ctx.notFound` (line 70) and `ctx.forbidden` (line 83) sit inside the `try` that opens at line 53. A helper that threw there would be caught at lines 91-94 and the request answered with 500 instead of 400, 404 or 403. The 400, 404 and 403 results of `Gate.Admit`, `Gate.Resume`, `Gate.BadRequestIff`, `Gate.NotFoundIff` and `Gate.ForbiddenIff` hold under this assumption. `ctx.unauthorized` (line 49) is outside the `try`, so the 401 result does not depend on it.
- Asynchrony is not modelled. `next()` is returned, not awaited, inside the `try`, so a rejection from a later stage is not caught by this handler. The model ends at the call to the next stage.
- The `config` argument and the `strapi` instance are not modelled beyond the lookup. The handler never reads `config`.
- Runtime values that break the declared types are not modelled, such as a user whose `roles` is not an array. Such a value would make `roles.some` throw inside the `try` and produce a 500. The model keeps roles a sequence, as declared.
- Ids are narrowed from `number` to `int`. The source declares user, role, seller and product ids as `number` (lines 5, 7, 13 and 15), which is a double. This drops NaN and fractional ids. For example, a seller id and a user id that are both NaN are never equal under `===`, so that user is never the owner; with `int` ids equality is plain integer equality.

=== FILE: gate.dfy ===
/**
  The ownership middleware as a pure decision procedure.

  The handler runs in two phases separated by its one suspension point, the
  awaited product lookup: `Admit` runs the checks that come before it and
  either finishes the request or asks for the product with a given id;
  `Resume` takes the lookup's outcome and finishes. `Decide` composes the two
  for a given lookup outcome, which stands for whatever the lookup returns
  or throws for the requested id.
 */
module Gate {
  import opened Model
  import opened Policy

  /** The request passes every check before the lookup: gated, with a user and a non-empty id. */
  predicate ReachesLookup(req: Request) {
    Gated(req) && req.state.user.Some? && HasId(req.id)
  }

  /** Where the handler stands at the await: finished, or waiting for a product. */
  datatype Stage = Done(outcome: Outcome) | Await(user: User, id: string)

  /**
    Everything before the lookup: the path and method filter, the user check
    and the id check, in that order.
   */
  function Admit(req: Request): (s: Stage)
    ensures s.Await? <==> ReachesLookup(req)
    ensures s.Await? ==> Some(s.user) == req.state.user && Some(s.id) == req.id && s.id != ""
    ensures s.Done? ==> s.outcome.state == req.state
    ensures s.Done? ==> (s.outcome.verdict == Forward <==> !Gated(req))
    ensures s.Done? && Gated(req) ==>
              s.outcome.verdict == Halt(if req.state.user.None? then Unauthorized else BadRequest)
  {
    if !IsProductPath(req.path) then
      Done(Outcome(Forward, req.state))
    else if !IsMutating(req.verb) then
      Done(Outcome(Forward, req.state))
    else if req.state.user.None? then
      Done(Outcome(Halt(Unauthorized), req.state))
    else if !HasId(req.id) then
      Done(Outcome(Halt(BadRequest), req.state))
    else
      Await(req.state.user.value, req.id.value)
  }

  /**
    Everything after the lookup: a thrown lookup becomes a generic internal
    error, a missing product a not-found, and a found product is attached to
    state and forwarded exactly when the user owns it or is an administrator.
   */
  function Resume(state: State, user: User, lookup: Lookup): (o: Outcome)
    ensures o.verdict == Forward <==> lookup.Found? && Allowed(user, lookup.product)
    ensures o.verdict == Forward ==> o.state == state.(product := Some(lookup.product))
    ensures o.verdict != Forward ==> o.state == state
    ensures o.verdict == Halt(InternalError) <==> lookup.Fault?
    ensures o.verdict == Halt(NotFound) <==> lookup.Absent?
    ensures o.verdict == Halt(Forbidden) <==> lookup.Found? && !Allowed(user, lookup.product)
  {
    match lookup
    case Fault(_) => Outcome(Halt(InternalError), state)
    case Absent => Outcome(Halt(NotFound), state)
    case Found(product) =>
      if !IsOwner(user, product) && !IsAdmin(user) then
        Outcome(Halt(Forbidden), state)
      else
        Outcome(Forward, state.(product := Some(product)))
  }

  /**
    The whole handler for one request, given the outcome of the lookup it
    would perform. The user in state is never changed; the product slot is
    written only by an allowed gated request, and then with the fetched
    product.
   */
  function Decide(req: Request, lookup: Lookup): (o: Outcome)
    ensures o.state.user == req.state.user
    ensures o.verdict.Halt? ==> o.state == req.state
    ensures o.state != req.state ==> lookup.Found? && o.verdict == Forward
                                     && o.state.product == Some(lookup.product)
  {
    match Admit(req)
    case Done(outcome) => outcome
    case Await(user, _) => Resume(req.state, user, lookup)
  }

  /** Requests off the product path are forwarded untouched, whatever else holds. */
  lemma OffPathForwards(req: Request, lookup: Lookup)
    requires !IsProductPath(req.path)
    ensures Decide(req, lookup) == Outcome(Forward, req.state)
  {
  }

  /** On the product path, a method other than PUT, DELETE or PATCH is forwarded untouched. */
  lemma NonMutatingForwards(req: Request, lookup: Lookup)
    requires IsProductPath(req.path) && !IsMutating(req.verb)
    ensures Decide(req, lookup) == Outcome(Forward, req.state)
  {
  }

  /** A gated request without a user is refused with 401, whatever the id and lookup. */
  lemma UnauthorizedIff(req: Request, lookup: Lookup)
    ensures Decide(req, lookup).verdict == Halt(Unauthorized)
            <==> Gated(req) && req.state.user.None?
  {
  }

  /** A gated request with a user but a missing or empty id is refused with 400. */
  lemma BadRequestIff(req: Request, lookup: Lookup)
    ensures Decide(req, lookup).verdict == Halt(BadRequest)
            <==> Gated(req) && req.state.user.Some? && !HasId(req.id)
  {
  }

  /** The lookup is consulted only past the user and id checks; a null result is a 404. */
  lemma NotFoundIff(req: Request, lookup: Lookup)
    ensures Decide(req, lookup).verdict == Halt(NotFound)
            <==> ReachesLookup(req) && lookup.Absent?
  {
  }

  /** A thrown lookup is a 500, and only a thrown lookup is. */
  lemma InternalErrorIff(req: Request, lookup: Lookup)
    ensures Decide(req, lookup).verdict == Halt(InternalError)
            <==> ReachesLookup(req) && lookup.Fault?
  {
  }

  /** A found product the user neither sells nor administers is a 403. */
  lemma ForbiddenIff(req: Request, lookup: Lookup)
    ensures Decide(req, lookup).verdict == Halt(Forbidden)
            <==> ReachesLookup(req) && lookup.Found?
                 && !Allowed(req.state.user.value, lookup.product)
  {
  }

  /**
    The request reaches the next stage exactly when it is not gated, or when
    it carries a user and a non-empty id and the lookup finds a product the
    user sells or the user is an administrator.
   */
  lemma ForwardIff(req: Request, lookup: Lookup)
    ensures Decide(req, lookup).verdict == Forward
            <==> !Gated(req)
                 || (req.state.user.Some? && HasId(req.id) && lookup.Found?
                     && (IsOwner(req.state.user.value, lookup.product) || IsAdmin(req.state.user.value)))
  {
  }

  /**
    An allowed gated request leaves the fetched product in state and nothing
    else changed.
   */
  lemma AllowedAttachesProduct(req: Request, lookup: Lookup)
    requires Gated(req) && Decide(req, lookup).verdict == Forward
    ensures lookup.Found?
    ensures Decide(req, lookup).state == State(req.state.user, Some(lookup.product))
  {
  }

  /**
    Before the lookup the handler has already decided: when it does not
    reach the await, any two lookup outcomes give the same result.
   */
  lemma LookupNotConsulted(req: Request, l1: Lookup, l2: Lookup)
    requires !ReachesLookup(req)
    ensures Decide(req, l1) == Decide(req, l2)
  {
  }

  /** The error thrown by the lookup never reaches the response. */
  lemma FaultIsOpaque(req: Request, d1: string, d2: string)
    ensures Decide(req, Fault(d1)) == Decide(req, Fault(d2))
    ensures ReachesLookup(req) ==> Decide(req, Fault(d1)).verdict.failure.Message() == "An error occurred"
  {
  }

  /**
    The verdict is a function of path, method, user, id and lookup outcome
    alone: a product already sitting in state does not influence it.
   */
  lemma VerdictIgnoresPriorProduct(r1: Request, r2: Request, lookup: Lookup)
    requires r1.path == r2.path && r1.verb == r2.verb && r1.id == r2.id
    requires r1.state.user == r2.state.user
    ensures Decide(r1, lookup).verdict == Decide(r2, lookup).verdict
  {
  }

  /** A product without a seller gets through only for an administrator. */
  lemma SellerlessProductNeedsAdmin(req: Request, p: Product)
    requires ReachesLookup(req) && p.seller.None?
    ensures Decide(req, Found(p)).verdict == Forward <==> IsAdmin(req.state.user.value)
  {
  }
}

=== FILE: handler.dfy ===
/**
  The handler written step by step, the way the middleware executes it:
  the prefix test, the method lookup in the list of gated methods and the
  search of the user's roles are explicit loops over strings and sequences,
  and the result is proved equal to the decision procedure in `Gate`.
 */
module Handler {
  import opened Model
  import opened Policy
  import Gate

  /** `s.startsWith(prefix)`, comparing character by character. */
  method StartsWith(s: string, prefix: string) returns (b: bool)
    ensures b <==> prefix <= s
  {
    if |s| < |prefix| {
      return false;
    }
    var i := 0;
    while i < |prefix|
      invariant 0 <= i <= |prefix|
      invariant prefix[..i] == s[..i]
    {
      if prefix[i] != s[i] {
        return false;
      }
      i := i + 1;
    }
    assert prefix == s[..|prefix|];
    return true;
  }

  /** `list.includes(x)` on strings, which compares exactly. */
  method Includes(list: seq<string>, x: string) returns (b: bool)
    ensures b <==> x in list
  {
    var i := 0;
    while i < |list|
      invariant 0 <= i <= |list|
      invariant x !in list[..i]
    {
      if list[i] == x {
        return true;
      }
      assert list[..i + 1] == list[..i] + [list[i]];
      i := i + 1;
    }
    assert list[..i] == list;
    return false;
  }

  /** `roles.some(role => role.name === name)`. */
  method SomeRoleNamed(roles: seq<Role>, name: string) returns (b: bool)
    ensures b <==> exists i :: 0 <= i < |roles| && roles[i].name == name
  {
    var i := 0;
    while i < |roles|
      invariant 0 <= i <= |roles|
      invariant forall j :: 0 <= j < i ==> roles[j].name != name
    {
      if roles[i].name == name {
        return true;
      }
      i := i + 1;
    }
    return false;
  }

  /**
    One run of the middleware on a request, given the outcome of the lookup
    it performs; it agrees with the decision procedure on every input.
   */
  method Handle(req: Request, lookup: Lookup) returns (o: Outcome)
    ensures o == Gate.Decide(req, lookup)
  {
    var onPath := StartsWith(req.path, ProductPrefix);
    if !onPath {
      return Outcome(Forward, req.state);
    }
    var mutating := Includes(MutatingMethods, req.verb);
    if !mutating {
      return Outcome(Forward, req.state);
    }
    if req.state.user.None? {
      return Outcome(Halt(Unauthorized), req.state);
    }
    var user := req.state.user.value;
    if req.id.None? || req.id.value == "" {
      return Outcome(Halt(BadRequest), req.state);
    }
    match lookup
    case Fault(_) =>
      o := Outcome(Halt(InternalError), req.state);
    case Absent =>
      o := Outcome(Halt(NotFound), req.state);
    case Found(product) =>
      var isOwner := product.seller.Some? && product.seller.value.id == user.id;
      var isAdmin := SomeRoleNamed(user.roles, AdminRole);
      if !isOwner && !isAdmin {
        o := Outcome(Halt(Forbidden), req.state);
      } else {
        o := Outcome(Forward, req.state.(product := Some(product)));
      }
  }
}

=== FILE: model.dfy ===
/**
  Data model of the product ownership middleware: the shapes of the
  authenticated user, the product, the request-scoped state and the request,
  the outcome of the single product lookup, and the classified result the
  middleware produces.

  The middleware's configuration is hard-wired in the source (its `config`
  argument is never read), so the path prefix, the gated methods, the
  administrator role name and the response messages are constants here.
 */
module Model {

  /** An optional value: `undefined` (or `null`) in the source is `None`. */
  datatype Option<+T> = None | Some(value: T)

  /** One role of a user; only `name` takes part in any decision. */
  datatype Role = Role(id: int, name: string)

  /** The authenticated caller placed in request state by authentication; ids are `number` in the source, narrowed to `int` here. */
  datatype User = User(id: int, roles: seq<Role>)

  /** The populated `seller` relation of a product. */
  datatype Seller = Seller(id: int)

  /** A product as returned by the lookup with its seller populated. */
  datatype Product = Product(id: int, seller: Option<Seller>)

  /** Request-scoped state: the user set upstream and the product slot. */
  datatype State = State(user: Option<User>, product: Option<Product>)

  /**
    The parts of the request the middleware reads. `verb` is the HTTP
    method; `id` is the `id` path parameter, which the source reads twice
    from the same field (`params.id || ctx.params.id`), so once here.
   */
  datatype Request = Request(path: string, verb: string, state: State, id: Option<string>)

  /**
    The outcome of looking the product up by id: a product, `null`, or a
    thrown error whose content is `detail`.
   */
  datatype Lookup = Found(product: Product) | Absent | Fault(detail: string)

  /** The five ways the middleware halts a request with a response. */
  datatype Failure = Unauthorized | BadRequest | NotFound | Forbidden | InternalError {

    /** The HTTP status code of the framework's context helper used for this failure. */
    function Status(): (code: int) {
      match this
      case Unauthorized => 401
      case BadRequest => 400
      case NotFound => 404
      case Forbidden => 403
      case InternalError => 500
    }

    /** The fixed response message; none of them depends on the request. */
    function Message(): (text: string) {
      match this
      case Unauthorized => UnauthorizedMessage
      case BadRequest => BadRequestMessage
      case NotFound => NotFoundMessage
      case Forbidden => ForbiddenMessage
      case InternalError => InternalErrorMessage
    }
  }

  /** Either the next stage is invoked, or the request ends with a failure. */
  datatype Verdict = Forward | Halt(failure: Failure)

  /** The verdict together with the request state the middleware leaves behind. */
  datatype Outcome = Outcome(verdict: Verdict, state: State)

  const ProductPrefix: string := "/api/products"
  const MutatingMethods: seq<string> := ["PUT", "DELETE", "PATCH"]
  const AdminRole: string := "Administrator"

  const UnauthorizedMessage: string := "You must be logged in"
  const BadRequestMessage: string := "Product ID is required"
  const NotFoundMessage: string := "Product not found"
  const ForbiddenMessage: string := "You are not authorized to modify this product"
  const InternalErrorMessage: string := "An error occurred"
}

=== FILE: policy.dfy ===
/**
  The individual tests the ownership middleware applies, each stated once as
  a predicate, with lemmas pinning down their edge cases: the raw prefix test
  on the path, exact membership of the method, the falsy id, and the
  owner-or-administrator rule.
 */
module Policy {
  import opened Model

  /** `ctx.path.startsWith("/api/products")`: a raw string prefix test. */
  predicate IsProductPath(path: string) {
    ProductPrefix <= path
  }

  /** `["PUT", "DELETE", "PATCH"].includes(method)`, on the request's HTTP method: exact, case-sensitive. */
  predicate IsMutating(verb: string) {
    verb in MutatingMethods
  }

  /** A request the middleware checks at all; every other request is forwarded. */
  predicate Gated(req: Request) {
    IsProductPath(req.path) && IsMutating(req.verb)
  }

  /** `!productId` is false: the id is present and, being a string, not empty. */
  predicate HasId(id: Option<string>) {
    id.Some? && id.value != ""
  }

  /** `product.seller?.id === user.id`: a product without a seller has no owner. */
  predicate IsOwner(user: User, product: Product) {
    product.seller.Some? && product.seller.value.id == user.id
  }

  /** `user.roles.some(role => role.name === "Administrator")`. */
  predicate IsAdmin(user: User) {
    exists i :: 0 <= i < |user.roles| && user.roles[i].name == AdminRole
  }

  /** The middleware lets the user modify the product. */
  predicate Allowed(user: User, product: Product) {
    IsOwner(user, product) || IsAdmin(user)
  }

  /** Exactly the three methods PUT, DELETE and PATCH are gated. */
  lemma MutatingMethodsExactly(verb: string)
    ensures IsMutating(verb) <==> verb == "PUT" || verb == "DELETE" || verb == "PATCH"
  {
  }

  /**
    Reads and creations are never gated, and the method comparison does not
    fold case.
   */
  lemma ReadsAndCreatesNotGated()
    ensures !IsMutating("GET") && !IsMutating("POST") && !IsMutating("HEAD")
    ensures !IsMutating("put") && !IsMutating("Delete")
    ensures forall v :: v != "PUT" && v != "DELETE" && v != "PATCH" ==> !IsMutating(v)
  {
  }

  /**
    The path test is a plain prefix test: any path continuing the prefix,
    including one that names a different collection such as
    "/api/productsX", is a product path; a shorter or differently-cased
    path is not.
   */
  lemma PrefixIsRaw(suffix: string)
    ensures IsProductPath(ProductPrefix + suffix)
    ensures IsProductPath("/api/productsX") && IsProductPath("/api/products/7")
    ensures !IsProductPath("/api/product") && !IsProductPath("/API/products")
  {
    assert (ProductPrefix + suffix)[..|ProductPrefix|] == ProductPrefix;
    assert "/API/products"[1] != ProductPrefix[1];
  }

  /** A path is a product path exactly when it is the prefix followed by something. */
  lemma ProductPathDecomposes(path: string)
    ensures IsProductPath(path) <==> exists suffix :: path == ProductPrefix + suffix
  {
    if IsProductPath(path) {
      var suffix := path[|ProductPrefix|..];
      assert path == ProductPrefix + suffix;
    }
  }

  /**
    A missing id and the empty string are treated alike; any other string
    counts, "0" included. The middle clause restates `HasId` with a length
    test; the three examples carry the content.
   */
  lemma EmptyIdIsMissing(id: Option<string>)
    ensures !HasId(None) && !HasId(Some(""))
    ensures HasId(id) <==> id.Some? && |id.value| > 0
    ensures HasId(Some("0"))
  {
  }

  /** A product without a seller can only be modified by an administrator. */
  lemma NoSellerOnlyAdmin(user: User, product: Product)
    requires product.seller.None?
    ensures Allowed(user, product) <==> IsAdmin(user)
  {
  }

  /** An administrator may modify every product, whoever sells it. */
  lemma AdminAllowedEverywhere(user: User, product: Product)
    requires IsAdmin(user)
    ensures Allowed(user, product)
  {
  }

  /** A non-administrator may modify exactly the products whose seller is the user. */
  lemma NonAdminOnlyOwner(user: User, product: Product)
    requires !IsAdmin(user)
    ensures Allowed(user, product) <==> product.seller == Some(Seller(user.id))
  {
  }

  /** The set of role names a user holds. */
  function RoleNames(user: User): (names: set<string>) {
    set r | r in user.roles :: r.name
  }

  /**
    The administrator test looks at role names only: the order of the roles,
    their ids and repeated names do not matter.
   */
  lemma AdminDependsOnRoleNamesOnly(u: User, v: User)
    requires RoleNames(u) == RoleNames(v)
    ensures IsAdmin(u) <==> IsAdmin(v)
  {
    if IsAdmin(u) {
      AdminHasAdminName(u);
      AdminFromName(v);
    }
    if IsAdmin(v) {
      AdminHasAdminName(v);
      AdminFromName(u);
    }
  }

  /** A user is an administrator exactly when "Administrator" is among the role names. */
  lemma AdminIffNamed(u: User)
    ensures IsAdmin(u) <==> AdminRole in RoleNames(u)
  {
    if IsAdmin(u) {
      AdminHasAdminName(u);
    } else if AdminRole in RoleNames(u) {
      AdminFromName(u);
    }
  }

  lemma AdminHasAdminName(u: User)
    requires IsAdmin(u)
    ensures AdminRole in RoleNames(u)
  {
    var i :| 0 <= i < |u.roles| && u.roles[i].name == AdminRole;
    assert u.roles[i] in u.roles;
  }

  lemma AdminFromName(u: User)
    requires AdminRole in RoleNames(u)
    ensures IsAdmin(u)
  {
    var r :| r in u.roles && r.name == AdminRole;
    var i :| 0 <= i < |u.roles| && u.roles[i] == r;
  }

  /** Reordering the roles (a permutation of the sequence) keeps the administrator test. */
  lemma AdminIgnoresRoleOrder(u: User, v: User)
    requires multiset(u.roles) == multiset(v.roles)
    ensures IsAdmin(u) <==> IsAdmin(v)
  {
    forall r | r in u.roles
      ensures r in v.roles
    {
      assert r in multiset(u.roles);
    }
    forall r | r in v.roles
      ensures r in u.roles
    {
      assert r in multiset(v.roles);
    }
    assert RoleNames(u) == RoleNames(v);
    AdminDependsOnRoleNamesOnly(u, v);
  }

  /** Every failure has its own status code. */
  lemma FailureStatusesDistinct(f: Failure, g: Failure)
    ensures f.Status() == g.Status() <==> f == g
    ensures 400 <= f.Status() <= 500
  {
  }
}

=== FILE: scenarios.dfy ===
/**
  Concrete requests worked through the decision procedure: the main allow
  and deny cases of the ownership gate and a few edge cases of its string
  tests.
 */
module Scenarios {
  import opened Model
  import opened Policy
  import opened Gate

  const Plain: User := User(5, [])
  const Admin: User := User(5, [Role(1, "Administrator")])

  function Put(user: Option<User>, id: Option<string>): (req: Request) {
    Request("/api/products/9", "PUT", State(user, None), id)
  }

  /** The seller edits their own product: forwarded with the product attached. */
  lemma OwnerMayUpdate()
    ensures var p := Product(9, Some(Seller(5)));
            Decide(Put(Some(Plain), Some("9")), Found(p))
            == Outcome(Forward, State(Some(Plain), Some(p)))
  {
  }

  /** An administrator deletes someone else's product. */
  lemma AdminMayDelete()
    ensures var req := Request("/api/products/9", "DELETE", State(Some(Admin), None), Some("9"));
            Decide(req, Found(Product(9, Some(Seller(7))))).verdict == Forward
  {
    assert Admin.roles[0].name == AdminRole;
    assert IsAdmin(Admin);
  }

  /** A plain user patches someone else's product: 403. */
  lemma OtherSellerForbidden()
    ensures var req := Request("/api/products/9", "PATCH", State(Some(Plain), None), Some("9"));
            var o := Decide(req, Found(Product(9, Some(Seller(7)))));
            o.verdict == Halt(Forbidden) && o.verdict.failure.Status() == 403
  {
  }

  /** No user: 401 before anything else. */
  lemma AnonymousUnauthorized()
    ensures Decide(Put(None, Some("9")), Absent).verdict.failure.Status() == 401
  {
  }

  /** No id, or an empty one: 400. */
  lemma MissingIdBadRequest()
    ensures Decide(Put(Some(Plain), None), Absent).verdict == Halt(BadRequest)
    ensures Decide(Put(Some(Plain), Some("")), Absent).verdict == Halt(BadRequest)
  {
  }

  /** The lookup returns null: 404. */
  lemma UnknownProductNotFound()
    ensures Decide(Put(Some(Plain), Some("9")), Absent).verdict.failure.Status() == 404
  {
  }

  /** A path that merely starts like the product collection is still gated. */
  lemma LookalikePathGated()
    ensures var req := Request("/api/productsX", "PUT", State(None, None), Some("1"));
            Decide(req, Absent).verdict == Halt(Unauthorized)
  {
  }

  /** A lower-case method is not in the gated list and is forwarded. */
  lemma LowerCaseMethodForwarded()
    ensures var req := Request("/api/products/9", "put", State(None, None), Some("9"));
            Decide(req, Absent).verdict == Forward
  {
  }
}
